=== FILE: README.md ===
# Temp-file cleanup task, modelled in Dafny

`FileSessionTempCleanTask` is the periodic task that keeps the service's temp
directory clean. It runs once at startup and then every hour. Its state is one
flag, `firstRun`, which is set when the task is built.

- **Startup (first run).** `Run` deletes the whole temp directory and
  recreates it empty.
- **Later runs.** `Run` walks the directory tree and deletes every file last
  modified more than two hours ago. Per-file errors are counted; they do not
  stop the walk.
- **Missing directory.** `Run` fails and changes nothing.

The model uses an abstract filesystem instead of the real one: a map from path
to entry, where an entry is a directory or a file with a modification time in
nanoseconds. The calls into Go's `os` package become operations on that map:

- `os.Stat` and `os.Lstat` are `StatOf` / `FileSystem.Stat`;
- `os.RemoveAll` is `RemoveAllResult` / `FileSystem.RemoveAll`;
- `os.MkdirAll` is `MkdirAllResult` / `FileSystem.MkdirAll`;
- `os.Remove` is `FileSystem.Remove`.

Whatever the real machine would decide is passed in as a `Faults` value:

- a Stat error other than "does not exist";
- the entries `RemoveAll` cannot delete;
- a `MkdirAll` failure;
- the entries the walk reports with an access error;
- the files `Remove` cannot delete;
- a failure of the walk itself.

The wall clock `now` and the configured temp path are parameters too.

Files:

- `filetree.dfy` (module `FileTree`): paths, entries, the walk's tree, the
  `os` stand-ins and the `FileSystem` class, whose `entries` map the task
  changes in place.
- `temp_clean.dfy` (module `TempClean`): the constants, the path fallback, the
  class `FileSessionTempCleanTask` with its `firstRun` field and its methods,
  and the constructor function.
  - `Run` is an imperative method. It clears the flag, wipes the directory or
    sweeps it through `Sweep`.
  - `Sweep` is a loop over the walk's entries. `Visit`, the walk callback,
    removes one entry and tells the loop which counter to increment.
  - `Run` is proved equal to the value-level specification `RunSpec`.
- `temp_clean_lemmas.dfy` (module `TempCleanProperties`): what one invocation
  guarantees, proved about `RunSpec`.
- `run_trace.dfy` (module `TempCleanTrace`): one task instance over a sequence
  of invocations, and what holds over its whole life. Between runs the rest
  of the service writes into the temp directory, so each invocation comes
  with the filesystem it finds; only the flag carries over.

Behaviour of the code worth knowing, which the model keeps:

- **A failed wipe does not leave the task in its first-run state.**
  `firstRun` is cleared at line 55, before `RemoveAll` and `MkdirAll` run. A
  failed wipe still puts the task in sweep mode, and the wipe is never retried
  (`FirstRunClearsFlag`, `AtMostOneWipe`).
- **Only "does not exist" stops the run.** Any other Stat error falls through
  to the wipe or the sweep (line 43, `Faults.statDenied`). On the first run,
  RemoveAll may then fail on a path it cannot look up, such as one below a
  regular file; `stuck` holding the directory itself stands for that
  (`PathBehindFileFailsWipe`).
- **The walk never fails.** The callback returns nil on every path (lines
  100, 105, 123), and `filepath.Walk` only fails with an error its callback
  returned. The branch at lines 126-134 is kept, driven by
  `Faults.walkFails`; with Go's `filepath.Walk` that flag is always false.
- **Any non-directory is removed, not only regular files.** The walk reads
  entries with `Lstat` and the code tests only `IsDir` (line 104). A symbolic
  link or a socket older than the threshold is removed too; `Entry.File`
  stands for every non-directory entry.
- **A configured path that is a regular file is handled like any entry.** It
  passes the existence check. A sweep then visits it as a file and deletes it
  once it is old enough.
- **The task never creates a missing directory** (`MissingDirForever`).
- **The wipe waits for the directory.** The flag is cleared only by a run
  that gets past the existence check. A directory that is missing at startup
  and created later by the rest of the service is wiped on the next run,
  together with the session files already written into it
  (`LateDirectoryIsWiped`, `JustWrittenFileIsWiped`).

## Model

| member | source | states |
|---|---|---|
| TempClean.ResolveDir | internal/task/task_file_session_temp_clean.go:35-38 | the directory is the configured path when it is non-empty and `storage/temp` otherwise; it is never empty |
| TempClean.FileSessionTempCleanTask.Name | internal/task/task_file_session_temp_clean.go:19-21 | the task is named `FileSessionTempClean` |
| TempClean.FileSessionTempCleanTask.LoopInterval | internal/task/task_file_session_temp_clean.go:24-26 | the task repeats every hour, a positive interval shorter than the two-hour grace window |
| TempClean.FileSessionTempCleanTask.IsStartupRun | internal/task/task_file_session_temp_clean.go:29-31 | the task is run once at startup |
| TempClean.FileSessionTempCleanTask.constructor | internal/task/task_file_session_temp_clean.go:148-150 | a new task starts with `firstRun` set |
| TempClean.NewFileSessionTempCleanTask | internal/task/task_file_session_temp_clean.go:147-151 | construction returns a fresh task with `firstRun` set and never returns an error |
| TempClean.FileSessionTempCleanTask.Run | internal/task/task_file_session_temp_clean.go:34-144 | the flag, filesystem and outcome after one invocation are exactly those of `RunSpec` on the old flag and filesystem |
| TempClean.Sweep | internal/task/task_file_session_temp_clean.go:88-124 | visiting the tree in any order removes exactly the stale entries whose removal succeeds; the counters are the number removed and the number whose removal failed |
| TempClean.Visit | internal/task/task_file_session_temp_clean.go:92-124 | the callback skips an entry with an access error and a directory; for a file older than the threshold it removes it and reports a deletion, or reports an error when removal fails; only a successful removal changes the filesystem |
| TempClean.VisitKeepsCounts | internal/task/task_file_session_temp_clean.go:109-120 | one callback keeps the sweep invariant: each stale entry visited so far is counted once, as a deletion or as an error, and only the deleted ones are gone |
| FileTree.StatOf | internal/task/task_file_session_temp_clean.go:43 | Stat reports "does not exist" exactly when the path is absent and no other error occurs |
| FileTree.RemoveAllResult | internal/task/task_file_session_temp_clean.go:58 | RemoveAll succeeds exactly when neither the path itself (present or not) nor any entry of its tree is undeletable or unreachable, then nothing of the tree remains; entries outside the tree are kept unchanged; what is left of the tree is only stuck entries and the directories above them |
| FileTree.MkdirAllResult | internal/task/task_file_session_temp_clean.go:69 | on success the path is a directory; an existing directory is a success that changes nothing; a non-directory there is a failure; only directories on the way to the path are added |
| FileTree.FileSystem.Remove | internal/task/task_file_session_temp_clean.go:110 | Remove succeeds exactly when the machine allows it and the entry is present and is a file or an empty directory; only then is the entry gone |
| TempCleanProperties.MissingDirChangesNothing | internal/task/task_file_session_temp_clean.go:43-51 | the run fails as "missing" exactly when the directory is absent and Stat reports not-exist; the flag and the filesystem are then unchanged and an error is returned |
| TempCleanProperties.FirstRunClearsFlag | internal/task/task_file_session_temp_clean.go:54-55 | in the first-run state, the flag stays set exactly when the directory is missing; otherwise the wipe branch runs and the flag is cleared even when the wipe fails |
| TempCleanProperties.WipeResult | internal/task/task_file_session_temp_clean.go:54-84 | the wipe never changes an entry outside the directory; it fails at removal exactly when the directory itself, present or not, or an entry below it cannot be deleted or looked up; it ends `Wiped` exactly when nothing blocks the removal, MkdirAll is not refused and no ancestor of the directory is a regular file, and then the directory exists, is empty and no error is returned |
| TempCleanProperties.PathBehindFileFailsWipe | internal/task/task_file_session_temp_clean.go:43-66 | a temp path below a regular file passes the existence check, RemoveAll fails on it, and the flag is cleared with the filesystem unchanged |
| TempCleanProperties.SlashRootSweepScenario | internal/task/task_file_session_temp_clean.go:88-121 | with the root "/" configured, a sweep reaches "/tmp/old" below it and removes that stale file, keeping the directories, with one deletion and no error |
| TempCleanProperties.DotRootSweepScenario | internal/task/task_file_session_temp_clean.go:88-121 | with "." configured, a sweep removes the stale relative file "a" and leaves "../b", which lies outside the working directory |
| TempCleanProperties.SweepModeIsFinal | internal/task/task_file_session_temp_clean.go:54-55 | with the flag clear, a run never takes the wipe branch and never sets the flag |
| TempCleanProperties.SweepRemovesExactlyStale | internal/task/task_file_session_temp_clean.go:88-124 | a sweep removes an entry exactly when it is a readable non-directory under the directory, modified strictly before now minus two hours, and removable; directories are kept; no kept entry changes |
| TempCleanProperties.SweepBoundary | internal/task/task_file_session_temp_clean.go:88-109 | a file modified exactly two hours before now is kept; one modified a nanosecond earlier is removed |
| TempCleanProperties.SweepCounts | internal/task/task_file_session_temp_clean.go:89-143 | a sweep fails only when the walk itself fails; deletions plus errors equal the number of stale entries visited; deletions equal the number of entries that disappeared |
| TempCleanProperties.SweepIdempotent | internal/task/task_file_session_temp_clean.go:88-124 | a second sweep at the same time with the same failures removes nothing and reports the same error count |
| TempCleanProperties.ThreeAgesScenario | internal/task/task_file_session_temp_clean.go:88-121 | of files aged 30, 90 and 150 minutes, a sweep removes only the 150-minute one and reports one deletion and no error |
| TempCleanTrace.Trace | internal/task/task_file_session_temp_clean.go:15 | a task instance run repeatedly produces one step per invocation, the first from the initial flag and the filesystem that invocation finds |
| TempCleanTrace.TraceChains | internal/task/task_file_session_temp_clean.go:15 | each later invocation starts from the flag the previous one left and from the filesystem it finds |
| TempCleanTrace.SweepModeForever | internal/task/task_file_session_temp_clean.go:54-55 | once the flag is clear, no later invocation sets it again or takes the wipe branch, whatever the filesystems found |
| TempCleanTrace.AtMostOneWipe | internal/task/task_file_session_temp_clean.go:54-85 | over a task's whole life the wipe branch is taken at most once, whatever fails and whatever the rest of the service writes between runs |
| TempCleanTrace.MissingDirForever | internal/task/task_file_session_temp_clean.go:43-51 | while the directory is absent and Stat reports it missing, every invocation fails, keeps the flag and leaves the filesystem it found unchanged: the task never creates the directory |
| TempCleanTrace.FreshTaskWipesOnFirstFind | internal/task/task_file_session_temp_clean.go:43-55 | a fresh task takes the wipe branch on the first invocation that gets past the existence check, and that invocation is missed exactly when its directory is absent and Stat reports not-exist |
| TempCleanTrace.LateDirectoryIsWiped | internal/task/task_file_session_temp_clean.go:43-58 | a directory missing at a fresh task's first run and present at the next is handled by that next run exactly as a first run, in the wipe branch |
| TempCleanTrace.JustWrittenFileIsWiped | internal/task/task_file_session_temp_clean.go:43-84 | a directory created after startup with a session file written a moment before the next run is wiped by that run: the outcome is `Wiped` and the directory is left empty |

## Left out

- Logging: the `global.Logger` / zap calls are a side channel that changes no state. The counts they report are kept as the fields of `Outcome.Swept`.
- Configuration: `global.Config.App.TempPath` is the `configured` parameter.
- The clock: `time.Now()` is the `now` parameter. Times are unbounded integers in nanoseconds. Go's 64-bit time limits and overflow of `now - 2h` are not modelled.
- The context: `ctx` is never read by `Run`, so cancellation is not modelled.
- Registration (`init` / `Register`, lines 153-155), the task registry and the scheduler: their sources are not part of this model. The driver also runs tasks concurrently. `TempCleanTrace` only models that one instance's invocations run one after another.
- Permission bits: `0754` is recorded as `TempDirPerm` and passed to `MkdirAll`, but entries carry no permissions.
- Walk order and `os.FileInfo`: the sweep visits the set of tree entries in an arbitrary order. `Sweep`'s result does not depend on the order.
- Unreadable directories: when a directory cannot be read, its subtree is not visited. The model puts those entries in the `unreadable` set.
- Paths are clean strings separated by '/'. `..` components and symbolic links are not resolved, and Stat does not follow links. The roots "/" and "." are handled as `filepath.Join` names their entries (`SlashRootSweepScenario`, `DotRootSweepScenario`).
- FileTree.Within: a configured path that is not clean, for instance one with a trailing slash ("storage/temp/") or a "./" prefix, is taken as written. Its entries are then not found below it, although Go's walk and `RemoveAll` clean the path first.
- The filesystem map is not required to form a tree. An entry may sit below a file or lack its parent directory. The if-and-only-if lemmas (`WipeResult`, `SweepRemovesExactlyStale`) therefore also cover states a real filesystem never reaches. This over-approximates: everything they state of reachable states holds.
- FileTree.MkdirAllResult: on failure the filesystem is unchanged, although the real call may already have created some of the missing parent directories.
- Error values are reduced to the `Outcome` branch. The `*PathError` contents and messages are not modelled.

=== FILE: filetree.dfy ===
/**
 * An abstract filesystem: a finite map from path to entry. It stands in for
 * the parts of Go's `os` package the cleanup task calls (Stat, Lstat,
 * RemoveAll, MkdirAll, Remove). Failures that depend on the real machine
 * (permissions, busy files) are supplied by the caller as oracle arguments.
 */
module FileTree {

  /** Paths are clean strings whose components are separated by '/'. */
  type Path = string

  /** A directory, or any non-directory entry with its modification time
      (nanoseconds, the unit of Go's time package). */
  datatype Entry = Dir | File(modTime: int)

  type FS = map<Path, Entry>

  /**
   * `p` is `root` itself or lies somewhere below it, as filepath.Join names
   * the entries of a walk: below "/" every other absolute path, below "."
   * every relative path that does not climb out through "..", below any
   * other root the paths that continue it after a '/'.
   */
  predicate Within(p: Path, root: Path) {
    || p == root
    || (root == "/" && |p| > 1 && p[0] == '/')
    || (root == "." && |p| > 0 && p[0] != '/' && p != ".." && !(|p| >= 3 && p[..3] == "../"))
    || (|root| < |p| && p[..|root|] == root && p[|root|] == '/')
  }

  /** Every entry the walk of `root` can reach: `root` and all entries below it. */
  function Tree(fs: FS, root: Path): set<Path> {
    set p | p in fs && Within(p, root)
  }

  /** The directories that MkdirAll creates on the way to `p`. */
  function ProperAncestors(p: Path): (r: set<Path>)
    ensures forall a :: a in r ==> |a| < |p| && Within(p, a) && !Within(a, p)
  {
    set i | 0 < i < |p| && p[i] == '/' :: p[..i]
  }

  /** What os.Stat / os.Lstat report (there are no symbolic links here). */
  datatype StatResult = Found(entry: Entry) | NotExist | Denied

  /** `denied` stands for an error other than "does not exist" (a permission
      problem on a parent, say); it is reported whether or not `p` exists. */
  function StatOf(fs: FS, p: Path, denied: bool): (r: StatResult)
    ensures r.NotExist? <==> !denied && p !in fs
    ensures r.Found? ==> p in fs && r.entry == fs[p]
  {
    if denied then Denied else if p in fs then Found(fs[p]) else NotExist
  }

  /**
   * os.RemoveAll: deletes `root` and everything below it, except the entries
   * in `stuck` that cannot be deleted and the directories that still hold
   * one of them. It fails when something is left, and when `root` itself is
   * in `stuck`: that also stands for a `root` that cannot even be looked up
   * (a component of the path is a file, a parent cannot be searched), which
   * fails although nothing is there. Otherwise a path that does not exist is
   * a success.
   */
  function RemoveAllResult(fs: FS, root: Path, stuck: set<Path>): (r: (FS, bool))
    ensures r.1 <==> stuck * (Tree(fs, root) + {root}) == {}
    ensures r.1 ==> Tree(r.0, root) == {}
    ensures r.0.Keys <= fs.Keys
    ensures forall q :: q in r.0 ==> r.0[q] == fs[q]
    ensures forall q :: q in fs && !Within(q, root) ==> q in r.0
    ensures forall s :: s in stuck && s in Tree(fs, root) ==> s in r.0
    ensures forall q :: q in r.0 && Within(q, root) ==> exists s :: s in stuck && Within(s, q)
  {
    var blocked := stuck * (Tree(fs, root) + {root});
    var kept := set q | q in fs && Within(q, root) && exists s :: s in blocked && Within(s, q);
    forall s | s in stuck && s in Tree(fs, root)
      ensures s in kept
    {
      assert s in blocked && Within(s, s);
    }
    (map q | q in fs && (!Within(q, root) || q in kept) :: fs[q], blocked == {})
  }

  /**
   * os.MkdirAll: an existing directory is a success and changes nothing; an
   * existing non-directory at `p` or on the way to it is a failure; otherwise
   * `p` and its missing ancestors become directories, unless `fails` (an
   * error the machine reports, a permission problem say) stops it.
   */
  function MkdirAllResult(fs: FS, p: Path, fails: bool): (r: (FS, bool))
    ensures r.1 ==> p in r.0 && r.0[p] == Dir
    ensures p in fs && fs[p].Dir? ==> r == (fs, true)
    ensures p in fs && fs[p].File? ==> !r.1
    ensures p !in fs && fails ==> !r.1
    ensures fs.Keys <= r.0.Keys
    ensures forall q :: q in fs ==> r.0[q] == fs[q]
    ensures forall q :: q in r.0 && q !in fs ==> r.0[q] == Dir && (q == p || q in ProperAncestors(p))
  {
    if p in fs then (fs, fs[p].Dir?)
    else if fails || exists a :: a in ProperAncestors(p) && a in fs && fs[a].File? then (fs, false)
    else
      var made := map a | a in ProperAncestors(p) + {p} && a !in fs :: Dir;
      (fs + made, true)
  }

  /** The filesystem the task works on; its only state is the map of entries. */
  class FileSystem {
    var entries: FS

    constructor (initial: FS)
      ensures entries == initial
    {
      entries := initial;
    }

    /** os.Stat and os.Lstat. */
    function Stat(p: Path, denied: bool): StatResult
      reads this
    {
      StatOf(entries, p, denied)
    }

    /** os.RemoveAll. */
    method RemoveAll(root: Path, stuck: set<Path>) returns (ok: bool)
      modifies this
      ensures (entries, ok) == RemoveAllResult(old(entries), root, stuck)
    {
      var r := RemoveAllResult(entries, root, stuck);
      entries, ok := r.0, r.1;
    }

    /** os.MkdirAll; `perm` is recorded only, permission bits are not modelled. */
    method MkdirAll(p: Path, perm: int, fails: bool) returns (ok: bool)
      modifies this
      ensures (entries, ok) == MkdirAllResult(old(entries), p, fails)
    {
      var r := MkdirAllResult(entries, p, fails);
      entries, ok := r.0, r.1;
    }

    /**
     * os.Remove: deletes one file or one empty directory. It fails when
     * `fails` says the machine refuses, when `p` is absent and when `p` is a
     * directory that still has entries below it.
     */
    method Remove(p: Path, fails: bool) returns (ok: bool)
      modifies this
      ensures ok <==> !fails && p in old(entries) && (old(entries)[p].File? || Tree(old(entries), p) == {p})
      ensures entries == if ok then old(entries) - {p} else old(entries)
    {
      ok := !fails && p in entries && (entries[p].File? || Tree(entries, p) == {p});
      if ok {
        entries := entries - {p};
      }
    }
  }
}

=== FILE: run_trace.dfy ===
/**
 * A task instance lives for the whole process and is run again and again.
 * Between two runs the rest of the service writes session temp files into
 * the directory, and may create or remove the directory itself, so each
 * invocation finds a filesystem of its own. Only the task's flag carries
 * over from one run to the next. `Trace` follows one instance through a
 * sequence of invocations.
 */
module TempCleanTrace {
  import opened FileTree
  import opened TempClean
  import opened TempCleanProperties

  /** One invocation: the filesystem it finds, the clock and what fails. */
  datatype Invocation = Invocation(fs: FS, now: int, faults: Faults)

  /** The steps of successive invocations; each starts from the flag the
      previous one left and from the filesystem it finds. */
  function Trace(firstRun: bool, configured: string, runs: seq<Invocation>): (steps: seq<Step>)
    ensures |steps| == |runs|
    ensures |runs| > 0 ==> steps[0] == RunSpec(firstRun, runs[0].fs, configured, runs[0].now, runs[0].faults)
    decreases |runs|
  {
    if runs == [] then []
    else
      var s := RunSpec(firstRun, runs[0].fs, configured, runs[0].now, runs[0].faults);
      [s] + Trace(s.firstRun, configured, runs[1..])
  }

  /** Steps after the first start from the flag of the step before them. */
  lemma {:induction false} TraceChains(firstRun: bool, configured: string, runs: seq<Invocation>, i: nat)
    requires 0 < i < |runs|
    ensures var steps := Trace(firstRun, configured, runs);
            steps[i] == RunSpec(steps[i - 1].firstRun, runs[i].fs, configured, runs[i].now, runs[i].faults)
  {
    var s := RunSpec(firstRun, runs[0].fs, configured, runs[0].now, runs[0].faults);
    if i > 1 {
      TraceChains(s.firstRun, configured, runs[1..], i - 1);
    }
  }

  /** Once the flag is clear it stays clear, and no later invocation takes
      the wipe branch, whatever the rest of the service does in between. */
  lemma {:induction false} SweepModeForever(configured: string, runs: seq<Invocation>)
    ensures forall i :: 0 <= i < |runs| ==>
              !Trace(false, configured, runs)[i].firstRun
              && !Trace(false, configured, runs)[i].outcome.IsWipeBranch()
  {
    if runs != [] {
      var steps := Trace(false, configured, runs);
      var s := RunSpec(false, runs[0].fs, configured, runs[0].now, runs[0].faults);
      var rest := Trace(false, configured, runs[1..]);
      assert steps == [s] + rest;
      SweepModeForever(configured, runs[1..]);
      forall i | 0 < i < |steps|
        ensures steps[i] == rest[i - 1]
      {
      }
    }
  }

  /** Over the whole life of an instance the wipe branch is taken at most
      once, whatever the first state, the filesystems and the failures. */
  lemma {:induction false} AtMostOneWipe(firstRun: bool, configured: string, runs: seq<Invocation>)
    ensures forall i, j :: 0 <= i < j < |runs| && Trace(firstRun, configured, runs)[i].outcome.IsWipeBranch()
                           ==> !Trace(firstRun, configured, runs)[j].outcome.IsWipeBranch()
  {
    if runs != [] {
      var steps := Trace(firstRun, configured, runs);
      var s := RunSpec(firstRun, runs[0].fs, configured, runs[0].now, runs[0].faults);
      var rest := Trace(s.firstRun, configured, runs[1..]);
      assert steps == [s] + rest;
      if s.outcome.IsWipeBranch() {
        SweepModeForever(configured, runs[1..]);
      } else {
        AtMostOneWipe(s.firstRun, configured, runs[1..]);
      }
      forall i, j | 0 <= i < j < |steps| && steps[i].outcome.IsWipeBranch()
        ensures !steps[j].outcome.IsWipeBranch()
      {
        assert steps[j] == rest[j - 1];
        if i > 0 {
          assert steps[i] == rest[i - 1];
        }
      }
    }
  }

  /** The task never creates a missing directory: as long as the directory
      is absent and Stat answers "does not exist", every invocation fails,
      leaves the filesystem it found unchanged, and keeps the flag. */
  lemma {:induction false} MissingDirForever(firstRun: bool, configured: string, runs: seq<Invocation>)
    requires forall k :: 0 <= k < |runs| ==> ResolveDir(configured) !in runs[k].fs && !runs[k].faults.statDenied
    ensures forall i :: 0 <= i < |runs| ==> Trace(firstRun, configured, runs)[i] == Step(firstRun, runs[i].fs, DirMissing)
  {
    if runs != [] {
      var steps := Trace(firstRun, configured, runs);
      var s := RunSpec(firstRun, runs[0].fs, configured, runs[0].now, runs[0].faults);
      assert s == Step(firstRun, runs[0].fs, DirMissing);
      var later := runs[1..];
      assert forall k :: 0 <= k < |later| ==> later[k] == runs[k + 1];
      var rest := Trace(firstRun, configured, later);
      assert steps == [s] + rest;
      MissingDirForever(firstRun, configured, later);
      forall i | 0 < i < |steps|
        ensures steps[i] == rest[i - 1]
      {
      }
    }
  }

  /** A fresh instance takes the wipe branch on the first invocation that
      gets past the existence check, and on no other: on the first whose
      directory exists or whose Stat fails otherwise. */
  lemma {:induction false} FreshTaskWipesOnFirstFind(configured: string, runs: seq<Invocation>, i: nat)
    requires i < |runs|
    requires forall k :: 0 <= k < i ==> Trace(true, configured, runs)[k].outcome.DirMissing?
    ensures var steps := Trace(true, configured, runs);
            && (steps[i].outcome.IsWipeBranch() <==> !steps[i].outcome.DirMissing?)
            && (steps[i].outcome.DirMissing? <==> ResolveDir(configured) !in runs[i].fs && !runs[i].faults.statDenied)
  {
    var steps := Trace(true, configured, runs);
    var s := RunSpec(true, runs[0].fs, configured, runs[0].now, runs[0].faults);
    if i > 0 {
      var rest := Trace(s.firstRun, configured, runs[1..]);
      assert steps == [s] + rest;
      assert steps[0].outcome.DirMissing?;
      assert s.firstRun;
      forall k | 0 <= k < i - 1
        ensures rest[k].outcome.DirMissing?
      {
        assert rest[k] == steps[k + 1];
      }
      FreshTaskWipesOnFirstFind(configured, runs[1..], i - 1);
      assert steps[i] == rest[i - 1];
    }
  }

  /**
   * A directory missing when a fresh task first runs and created by the
   * rest of the service before the next run is wiped by that next run: the
   * run starts in the first-run state, so whatever was written into the
   * directory in between is deleted with it.
   */
  lemma LateDirectoryIsWiped(configured: string, runs: seq<Invocation>)
    requires |runs| >= 2
    requires ResolveDir(configured) !in runs[0].fs && !runs[0].faults.statDenied
    requires ResolveDir(configured) in runs[1].fs
    ensures var steps := Trace(true, configured, runs);
            && steps[0] == Step(true, runs[0].fs, DirMissing)
            && steps[1] == RunSpec(true, runs[1].fs, configured, runs[1].now, runs[1].faults)
            && steps[1].outcome.IsWipeBranch()
  {
  }

  /**
   * The temp directory is missing at startup; the service then creates it
   * and writes a session file into it a moment before the next hourly run.
   * That run is still the first-run wipe, and the fresh file is gone.
   */
  lemma JustWrittenFileIsWiped(now: int)
    ensures var runs := [Invocation(map["storage" := Dir], now, NoFaults),
                         Invocation(map["storage" := Dir, FallbackTempPath := Dir,
                                        "storage/temp/s1" := File(now + Hour - 1)],
                                    now + Hour, NoFaults)];
            var steps := Trace(true, "", runs);
            && steps[1].outcome == Wiped
            && !steps[1].firstRun
            && Tree(steps[1].fs, FallbackTempPath) == {FallbackTempPath}
  {
  }
}

=== FILE: temp_clean.dfy ===
/**
 * The temp-file cleanup task (FileSessionTempCleanTask): a one-time wipe of
 * the temp directory on its first run, then on every later run a sweep that
 * deletes the files not modified for two hours.
 *
 * `RunSpec` is the specification of one invocation on values; the class
 * method `Run` changes the task's flag and the filesystem in place and is
 * proved to agree with it.
 */
module TempClean {
  import opened FileTree

  datatype Option<T> = None | Some(value: T)

  /** time.Hour, in nanoseconds. */
  const Hour: int := 3_600_000_000_000

  /** Files modified less than this long ago are kept by a sweep. */
  const GraceWindow: int := 2 * Hour

  /** The directory used when no temp path is configured. */
  const FallbackTempPath: Path := "storage/temp"

  /** Permission bits of the recreated directory, octal 0754. */
  const TempDirPerm: int := 0x1EC

  const TaskName: string := "FileSessionTempClean"

  /** The configured temp path, or the fallback when none is configured. */
  function ResolveDir(configured: string): (dir: Path)
    ensures dir != ""
    ensures configured != "" ==> dir == configured
    ensures configured == "" ==> dir == FallbackTempPath
  {
    if configured == "" then FallbackTempPath else configured
  }

  /** The age threshold of a sweep started at `now`. */
  function Threshold(now: int): int {
    now - GraceWindow
  }

  /** A non-directory entry last modified strictly before `threshold`. */
  predicate IsStale(e: Entry, threshold: int) {
    e.File? && e.modTime < threshold
  }

  /** The entries a sweep tries to delete: reached by the walk, read without
      an access error, and stale. */
  function Stale(fs: FS, root: Path, threshold: int, unreadable: set<Path>): set<Path> {
    set p | p in fs && Within(p, root) && p !in unreadable && IsStale(fs[p], threshold)
  }

  /**
   * What the machine does to one invocation. Each field names an I/O failure
   * the code reacts to:
   *   statDenied  - os.Stat of the directory fails with an error other than
   *                 "does not exist";
   *   stuck       - entries os.RemoveAll cannot delete; the directory
   *                 itself is in it also when RemoveAll cannot look it up;
   *   mkdirFails  - os.MkdirAll fails for a reason outside the tree;
   *   unreadable  - entries the walk reports with an access error, or does
   *                 not reach because a directory above them cannot be read;
   *   removeFails - files os.Remove cannot delete;
   *   walkFails   - filepath.Walk itself returns an error.
   */
  datatype Faults = Faults(
    statDenied: bool,
    stuck: set<Path>,
    mkdirFails: bool,
    unreadable: set<Path>,
    removeFails: set<Path>,
    walkFails: bool)

  /** The branch an invocation ends in; `Swept` carries the counts it logs. */
  datatype Outcome =
    | DirMissing
    | WipeFailed
    | RecreateFailed
    | Wiped
    | WalkFailed
    | Swept(deletedCount: nat, errorCount: nat)
  {
    /** Run returns a non-nil error. */
    predicate IsError() {
      !(Wiped? || Swept?)
    }

    /** The invocation went into the first-run wipe branch. */
    predicate IsWipeBranch() {
      WipeFailed? || RecreateFailed? || Wiped?
    }
  }

  /** The task's flag and the filesystem after one invocation, and its outcome. */
  datatype Step = Step(firstRun: bool, fs: FS, outcome: Outcome)

  /** One invocation of Run, on values. */
  function RunSpec(firstRun: bool, fs: FS, configured: string, now: int, f: Faults): Step {
    var dir := ResolveDir(configured);
    if StatOf(fs, dir, f.statDenied).NotExist? then
      Step(firstRun, fs, DirMissing)
    else if firstRun then
      var (fs1, removed) := RemoveAllResult(fs, dir, f.stuck);
      if !removed then
        Step(false, fs1, WipeFailed)
      else
        var (fs2, made) := MkdirAllResult(fs1, dir, f.mkdirFails);
        Step(false, fs2, if made then Wiped else RecreateFailed)
    else
      var s := Stale(fs, dir, Threshold(now), f.unreadable);
      var deleted := s - f.removeFails;
      Step(false, fs - deleted,
           if f.walkFails then WalkFailed else Swept(|deleted|, |s * f.removeFails|))
  }

  /**
   * The walk callback for one entry: an access error or a directory is
   * passed over; a file older than `threshold` is removed. `removed` and
   * `removeFailed` say which counter the entry adds to.
   */
  method Visit(fsys: FileSystem, path: Path, threshold: int, unreadable: bool, removeFails: bool)
    returns (removed: bool, removeFailed: bool)
    modifies fsys
    ensures var attempted := !unreadable && path in old(fsys.entries) && IsStale(old(fsys.entries)[path], threshold);
            && removed == (attempted && !removeFails)
            && removeFailed == (attempted && removeFails)
    ensures fsys.entries == if removed then old(fsys.entries) - {path} else old(fsys.entries)
  {
    removed, removeFailed := false, false;
    var info := fsys.Stat(path, unreadable);
    if info.Found? && !info.entry.Dir? && info.entry.modTime < threshold {
      var ok := fsys.Remove(path, removeFails);
      if !ok {
        removeFailed := true;
      } else {
        removed := true;
      }
    }
  }

  /** Visiting `path` moves it from `pending` to the deleted or the failed
      part of `stale` when it is stale, and changes neither otherwise. */
  lemma VisitedOne(stale: set<Path>, pending: set<Path>, rf: set<Path>, path: Path)
    requires path in pending
    ensures var deleted, deleted' := (stale - pending) - rf, (stale - (pending - {path})) - rf;
            && deleted' == deleted + (if path in stale && path !in rf then {path} else {})
            && |deleted'| == |deleted| + (if path in stale && path !in rf then 1 else 0)
    ensures var failed, failed' := (stale - pending) * rf, (stale - (pending - {path})) * rf;
            |failed'| == |failed| + (if path in stale && path in rf then 1 else 0)
  {
    var deleted, deleted' := (stale - pending) - rf, (stale - (pending - {path})) - rf;
    var failed, failed' := (stale - pending) * rf, (stale - (pending - {path})) * rf;
    if path in stale && path !in rf {
      assert deleted' == deleted + {path};
      assert failed' == failed;
    } else if path in stale {
      assert deleted' == deleted;
      assert failed' == failed + {path};
    } else {
      assert deleted' == deleted;
      assert failed' == failed;
    }
  }

  /** One step of the sweep loop keeps its invariant: the filesystem and the
      two counters describe the stale entries visited so far. */
  lemma VisitKeepsCounts(fs0: FS, root: Path, threshold: int, unreadable: set<Path>, rf: set<Path>,
                         stale: set<Path>, pending: set<Path>, path: Path, entries: FS, removed: bool, removeFailed: bool)
    requires stale == Stale(fs0, root, threshold, unreadable)
    requires path in pending && pending <= Tree(fs0, root)
    requires entries == fs0 - ((stale - pending) - rf)
    requires var attempted := path !in unreadable && path in entries && IsStale(entries[path], threshold);
             && removed == (attempted && path !in rf)
             && removeFailed == (attempted && path in rf)
    ensures (if removed then entries - {path} else entries) == fs0 - ((stale - (pending - {path})) - rf)
    ensures |(stale - (pending - {path})) - rf| == |(stale - pending) - rf| + (if removed then 1 else 0)
    ensures |(stale - (pending - {path})) * rf| == |(stale - pending) * rf| + (if removeFailed then 1 else 0)
  {
    assert path in entries && entries[path] == fs0[path];
    VisitedOne(stale, pending, rf, path);
  }

  /**
   * The walk of one sweep: every entry of the tree is visited once, in no
   * particular order, and the callback `Visit` decides what happens to it.
   * The result is fixed by the set of stale entries, whatever the order.
   */
  method Sweep(fsys: FileSystem, root: Path, threshold: int, unreadable: set<Path>, removeFails: set<Path>)
    returns (deletedCount: nat, errorCount: nat)
    modifies fsys
    ensures var stale := Stale(old(fsys.entries), root, threshold, unreadable);
            && fsys.entries == old(fsys.entries) - (stale - removeFails)
            && deletedCount == |stale - removeFails|
            && errorCount == |stale * removeFails|
  {
    deletedCount, errorCount := 0, 0;
    ghost var fs0 := fsys.entries;
    ghost var stale := Stale(fs0, root, threshold, unreadable);
    var pending := Tree(fsys.entries, root);
    while pending != {}
      invariant pending <= Tree(fs0, root)
      invariant fsys.entries == fs0 - ((stale - pending) - removeFails)
      invariant deletedCount == |(stale - pending) - removeFails|
      invariant errorCount == |(stale - pending) * removeFails|
      decreases pending
    {
      var path :| path in pending;
      ghost var entries := fsys.entries;
      var removed, removeFailed := Visit(fsys, path, threshold, path in unreadable, path in removeFails);
      VisitKeepsCounts(fs0, root, threshold, unreadable, removeFails, stale, pending, path, entries, removed, removeFailed);
      pending := pending - {path};
      if removeFailed {
        errorCount := errorCount + 1;
      } else if removed {
        deletedCount := deletedCount + 1;
      }
    }
    assert stale - pending == stale;
  }

  class FileSessionTempCleanTask {
    /** Set until the first invocation that finds the directory. */
    var firstRun: bool

    constructor ()
      ensures firstRun
    {
      firstRun := true;
    }

    function Name(): (n: string)
      ensures n == TaskName
    {
      TaskName
    }

    /** The task runs every hour, an interval shorter than the grace window. */
    function LoopInterval(): (d: int)
      ensures d == Hour
      ensures 0 < d < GraceWindow
    {
      Hour
    }

    function IsStartupRun(): (b: bool)
      ensures b
    {
      true
    }

    /**
     * One invocation. `configured` is the configured temp path, `now` the
     * wall clock, `faults` what the machine does.
     */
    method Run(fsys: FileSystem, configured: string, now: int, faults: Faults) returns (outcome: Outcome)
      modifies this, fsys
      ensures Step(firstRun, fsys.entries, outcome)
              == RunSpec(old(firstRun), old(fsys.entries), configured, now, faults)
    {
      var dir := ResolveDir(configured);
      if fsys.Stat(dir, faults.statDenied).NotExist? {
        return DirMissing;
      }

      if firstRun {
        // The flag is cleared before the wipe, so a failed wipe still ends it.
        firstRun := false;
        var removed := fsys.RemoveAll(dir, faults.stuck);
        if !removed {
          return WipeFailed;
        }
        var made := fsys.MkdirAll(dir, TempDirPerm, faults.mkdirFails);
        if !made {
          return RecreateFailed;
        }
        return Wiped;
      }

      var deletedCount, errorCount := Sweep(fsys, dir, Threshold(now), faults.unreadable, faults.removeFails);
      if faults.walkFails {
        return WalkFailed;
      }
      return Swept(deletedCount, errorCount);
    }
  }

  /** NewFileSessionTempCleanTask: a task in its first-run state; construction never fails. */
  method NewFileSessionTempCleanTask() returns (t: FileSessionTempCleanTask, err: Option<string>)
    ensures fresh(t) && t.firstRun
    ensures err == None
  {
    t := new FileSessionTempCleanTask();
    err := None;
  }
}

=== FILE: temp_clean_lemmas.dfy ===
/**
 * Properties of one invocation of the cleanup task, stated about `RunSpec`
 * (which the class method `Run` is proved to follow).
 */
module TempCleanProperties {
  import opened FileTree
  import opened TempClean

  /** Only a "does not exist" answer from Stat stops the run, and then
      neither the flag nor the filesystem changes. */
  lemma MissingDirChangesNothing(firstRun: bool, fs: FS, configured: string, now: int, f: Faults)
    ensures var r := RunSpec(firstRun, fs, configured, now, f);
            r.outcome.DirMissing? <==> ResolveDir(configured) !in fs && !f.statDenied
    ensures var r := RunSpec(firstRun, fs, configured, now, f);
            r.outcome.DirMissing? ==> r == Step(firstRun, fs, DirMissing) && r.outcome.IsError()
  {
  }

  /** In the first-run state, every run that gets past the existence check
      takes the wipe branch and clears the flag, whether or not the wipe
      then succeeds; the flag stays set only when the directory is missing. */
  lemma FirstRunClearsFlag(fs: FS, configured: string, now: int, f: Faults)
    ensures var r := RunSpec(true, fs, configured, now, f);
            && (r.firstRun <==> r.outcome.DirMissing?)
            && (!r.outcome.DirMissing? ==> r.outcome.IsWipeBranch())
  {
  }

  /**
   * The wipe of the first run: it never touches an entry outside the temp
   * directory; it fails on removal exactly when an entry of the directory,
   * or the directory itself, cannot be deleted or looked up; and when it succeeds the directory exists, is a
   * directory and is empty, and Run returns no error. It succeeds exactly
   * when nothing blocks the removal, MkdirAll is not refused and no
   * ancestor of the directory is a regular file.
   */
  lemma WipeResult(fs: FS, configured: string, now: int, f: Faults)
    requires !RunSpec(true, fs, configured, now, f).outcome.DirMissing?
    ensures var r, dir := RunSpec(true, fs, configured, now, f), ResolveDir(configured);
            forall q :: q in fs && !Within(q, dir) ==> q in r.fs && r.fs[q] == fs[q]
    ensures var r, dir := RunSpec(true, fs, configured, now, f), ResolveDir(configured);
            r.outcome.WipeFailed? <==> f.stuck * (Tree(fs, dir) + {dir}) != {}
    ensures var r, dir := RunSpec(true, fs, configured, now, f), ResolveDir(configured);
            r.outcome.Wiped? ==> && dir in r.fs && r.fs[dir] == Dir
                                 && Tree(r.fs, dir) == {dir}
                                 && !r.outcome.IsError()
    ensures var r, dir := RunSpec(true, fs, configured, now, f), ResolveDir(configured);
            r.outcome.Wiped? <==> && f.stuck * (Tree(fs, dir) + {dir}) == {}
                                  && !f.mkdirFails
                                  && !(exists a :: a in ProperAncestors(dir) && a in fs && fs[a].File?)
  {
  }

  /** Once the flag is clear, a run never takes the wipe branch and never
      sets the flag again. */
  lemma SweepModeIsFinal(fs: FS, configured: string, now: int, f: Faults)
    ensures var r := RunSpec(false, fs, configured, now, f);
            !r.firstRun && !r.outcome.IsWipeBranch()
  {
  }

  /**
   * What a sweep removes: exactly the non-directory entries of the tree that
   * were read without an access error, are older than `now` minus two hours,
   * and whose removal succeeds. Directories are kept, and no entry that is
   * kept changes.
   */
  lemma SweepRemovesExactlyStale(fs: FS, configured: string, now: int, f: Faults)
    requires !RunSpec(false, fs, configured, now, f).outcome.DirMissing?
    ensures var r := RunSpec(false, fs, configured, now, f);
            && r.fs.Keys <= fs.Keys
            && forall p :: p in r.fs ==> r.fs[p] == fs[p]
    ensures var r, dir := RunSpec(false, fs, configured, now, f), ResolveDir(configured);
            forall p :: p in fs ==>
              (p !in r.fs <==> && Within(p, dir) && p !in f.unreadable && p !in f.removeFails
                               && fs[p].File? && fs[p].modTime < now - 2 * Hour)
    ensures var r := RunSpec(false, fs, configured, now, f);
            forall p :: p in fs && fs[p].Dir? ==> p in r.fs
  {
  }

  /** The age boundary is strict: a file modified exactly two hours before
      `now` is kept, one modified a nanosecond earlier is removed. */
  lemma SweepBoundary(fs: FS, configured: string, now: int, f: Faults, p: Path)
    requires !RunSpec(false, fs, configured, now, f).outcome.DirMissing?
    requires p in Tree(fs, ResolveDir(configured)) && p !in f.unreadable && p !in f.removeFails
    requires fs[p].File?
    ensures fs[p].modTime == now - 2 * Hour ==> p in RunSpec(false, fs, configured, now, f).fs
    ensures fs[p].modTime == now - 2 * Hour - 1 ==> p !in RunSpec(false, fs, configured, now, f).fs
  {
  }

  /**
   * The counters of a sweep: every stale entry visited is counted once,
   * as a deletion or as an error; the deletions are the entries that
   * disappeared. Per-entry errors never fail the run: it fails only when
   * the walk itself does.
   */
  lemma SweepCounts(fs: FS, configured: string, now: int, f: Faults)
    requires !RunSpec(false, fs, configured, now, f).outcome.DirMissing?
    ensures var r := RunSpec(false, fs, configured, now, f);
            r.outcome.IsError() <==> f.walkFails
    ensures var r := RunSpec(false, fs, configured, now, f);
            r.outcome.Swept? ==>
              && r.outcome.deletedCount + r.outcome.errorCount
                 == |Stale(fs, ResolveDir(configured), Threshold(now), f.unreadable)|
              && r.outcome.deletedCount == |fs| - |r.fs|
  {
  }

  /** Two sweeps in a row at the same time, with the same failures: the
      second removes nothing and meets the same removal errors again. */
  lemma SweepIdempotent(fs: FS, configured: string, now: int, f: Faults)
    requires ResolveDir(configured) in fs && fs[ResolveDir(configured)].Dir?
    requires RunSpec(false, fs, configured, now, f).outcome.Swept?
    ensures var r1 := RunSpec(false, fs, configured, now, f);
            var r2 := RunSpec(false, r1.fs, configured, now, f);
            && r2.fs == r1.fs
            && r2.outcome == Swept(0, r1.outcome.errorCount)
  {
    var dir := ResolveDir(configured);
    var th := Threshold(now);
    var r1 := RunSpec(false, fs, configured, now, f);
    var s1 := Stale(fs, dir, th, f.unreadable);
    var s2 := Stale(r1.fs, dir, th, f.unreadable);
    assert dir in r1.fs;
    assert s2 == s1 * f.removeFails;
    assert s2 - f.removeFails == {};
    assert s2 * f.removeFails == s1 * f.removeFails;
  }

  /** The failures of a run on a healthy machine: none. */
  const NoFaults := Faults(false, {}, false, {}, {}, false)

  const Minute: int := Hour / 60

  /**
   * Files aged 30, 90 and 150 minutes in the fallback directory: a sweep
   * removes only the 150-minute file and reports one deletion, no error.
   */
  lemma ThreeAgesScenario(now: int)
    ensures var fs := map[FallbackTempPath := Dir,
                          "storage/temp/a" := File(now - 30 * Minute),
                          "storage/temp/b" := File(now - 90 * Minute),
                          "storage/temp/c" := File(now - 150 * Minute)];
            var r := RunSpec(false, fs, "", now, NoFaults);
            r.outcome == Swept(1, 0) && r.fs == fs - {"storage/temp/c"}
  {
    var fs := map[FallbackTempPath := Dir,
                  "storage/temp/a" := File(now - 30 * Minute),
                  "storage/temp/b" := File(now - 90 * Minute),
                  "storage/temp/c" := File(now - 150 * Minute)];
    assert Within("storage/temp/c", FallbackTempPath);
    assert Stale(fs, FallbackTempPath, Threshold(now), {}) == {"storage/temp/c"};
  }

  /**
   * The temp path "a/b" where "a" is a regular file: Stat fails with an error
   * other than "does not exist", so the first run goes on to RemoveAll, which
   * cannot look the path up and fails. The flag is cleared all the same.
   */
  lemma PathBehindFileFailsWipe(now: int)
    ensures var r := RunSpec(true, map["a" := File(0)], "a/b", now, Faults(true, {"a/b"}, false, {}, {}, false));
            r == Step(false, map["a" := File(0)], WipeFailed)
  {
    var fs: FS := map["a" := File(0)];
    assert !Within("a", "a/b");
    assert Tree(fs, "a/b") == {};
    var (fs1, removed) := RemoveAllResult(fs, "a/b", {"a/b"});
    assert !removed;
    assert fs1 == fs;
  }

  /**
   * A sweep of the root directory "/" reaches the whole tree below it: the
   * stale file "/tmp/old" is removed, the directories are kept.
   */
  lemma SlashRootSweepScenario(now: int)
    requires now > GraceWindow
    ensures var fs := map["/" := Dir, "/tmp" := Dir, "/tmp/old" := File(0)];
            RunSpec(false, fs, "/", now, NoFaults) == Step(false, map["/" := Dir, "/tmp" := Dir], Swept(1, 0))
  {
    var fs := map["/" := Dir, "/tmp" := Dir, "/tmp/old" := File(0)];
    assert Within("/tmp/old", "/");
    assert Stale(fs, "/", Threshold(now), {}) == {"/tmp/old"};
    assert fs - {"/tmp/old"} == map["/" := Dir, "/tmp" := Dir];
  }

  /**
   * A sweep of "." reaches the relative paths below the working directory,
   * named without a "./" prefix, and nothing reached through "..".
   */
  lemma DotRootSweepScenario(now: int)
    requires now > GraceWindow
    ensures var fs := map["." := Dir, "a" := File(0), "../b" := File(0)];
            RunSpec(false, fs, ".", now, NoFaults) == Step(false, map["." := Dir, "../b" := File(0)], Swept(1, 0))
  {
    var fs := map["." := Dir, "a" := File(0), "../b" := File(0)];
    assert Within("a", ".");
    assert !Within("../b", ".");
    assert Stale(fs, ".", Threshold(now), {}) == {"a"};
    assert fs - {"a"} == map["." := Dir, "../b" := File(0)];
  }
}
